=== FILE: README.md ===
# RICOH Media Storage client, modelled in Dafny

This project models `RicohAPI::MStorage::Client`, the Ruby client of the
RICOH Media Storage web API. The client has a small set of methods:

- `list`, `info`, `download`, `meta`, `upload` and `delete` each build one
  HTTP request.
- `add_meta` issues one PUT per user-metadata entry.
- `handle_response` turns the status and body of a reply into a return value
  or a `Client::Error`.

The model is pure. A request is a value: a verb, a path relative to the API
root, a payload, headers and the `as_raw` flag. The transport is a function
`Server<V> = seq<Request<V>> -> Response`. It gives the reply to the last
request of a history, so a loop of PUTs can meet a different reply at each
step. The JSON library (`MultiJson.load`, `JSON.parse`, and how a parsed
value interpolates into a string) is a `Codec` record of functions passed in
as a parameter.

Modules:

- `Results`: `Option` and `Result`.
- `Text`: splitting and joining at a separator, and decimal rendering of
  integers with its parser.
- `JsonValues`: parsed JSON values and the `Codec`.
- `Http`: verbs, payloads, requests, calls and responses.
- `UserMeta`: `valid?`, the user-metadata length constants, and the key
  pattern `^user\.([A-Za-z0-9_\-]{1,256})$`. The pattern is read with Ruby's
  anchors: `^` and `$` match at every line break.
- `Responses`: `handle_response`.
- `Routes`: the endpoint table of the API and a recogniser from verb and path
  back to an endpoint. It is the inverse of the path builders.
- `Requests`: the request builders of `list`, `info`, `download`, `meta`,
  `upload` and `delete`, with the `list` allow-list.
- `MetaWrites`: the `add_meta` loop as written, and a corrected loop.
- `MetaSelectors`: `meta` as its comments and tests describe it, selecting a
  sub-document by field name.
- `Scenarios`: concrete exchanges from the client's tests, and the inputs on
  which the code departs from its comments.

## Model

| member | source | states |
|---|---|---|
| Requests.FilterListParams | lib/ricohapi/mstorage/client.rb:21-23 | Every kept entry's key, read as a symbol, is one of `after`, `before`, `limit`, `filter`. An entry is kept if and only if it was in the caller's hash with such a key. Nothing is added. |
| Requests.FilterAppend | lib/ricohapi/mstorage/client.rb:21-23 | The allow-list works entry by entry. Filtering a concatenation is the concatenation of the filtered parts, so the caller's order is kept. |
| Requests.FilterIdempotent | lib/ricohapi/mstorage/client.rb:21-23 | Filtering an already filtered hash leaves it unchanged. |
| Requests.Lookup | lib/ricohapi/mstorage/client.rb:28-32 | `params[key]` is absent exactly when no entry has that key. When present, it is the value of an entry with that key. |
| Requests.LookupFiltered | lib/ricohapi/mstorage/client.rb:21-32 | Reading an allowed key after `reject!` gives what the caller passed. So `:filter` and the paging values reach the request unchanged. |
| Requests.ListCall | lib/ricohapi/mstorage/client.rb:20-41 | With a `:filter` key the call is a JSON POST to `media/search`. Its body holds the version `2016-07-08` under `search_veresion`, the query, and `before`/`after`/`limit` as the caller gave them (nil when absent). Without `:filter` it is a GET of `media` with the filtered hash as query. Either way the reply is decoded, and the request addresses the search or list endpoint. |
| Requests.MediaPathsRecognized | lib/ricohapi/mstorage/client.rb:43-77 | For a media id that is a single path segment, the paths interpolated by `info`, `delete`, `download` and `meta` are recognised as exactly that media's record, content or metadata endpoint. |
| Requests.InfoCall | lib/ricohapi/mstorage/client.rb:43-48 | `info(id)` is a decoded GET with no payload and no headers that addresses the media record of `id`. |
| Requests.DownloadCall | lib/ricohapi/mstorage/client.rb:50-55 | `download(id)` is a raw GET with no payload and no headers that addresses the content of `id`. |
| Requests.MetaCall | lib/ricohapi/mstorage/client.rb:57-63 | `meta(id, field_name)` is a decoded GET, with no payload and no headers, of the whole metadata document of `id`, whatever the field name. |
| Requests.UploadCall | lib/ricohapi/mstorage/client.rb:65-70 | `upload(media)` is a decoded POST to the upload endpoint `media`. It carries the media unchanged and adds no headers. |
| Requests.DeleteCall | lib/ricohapi/mstorage/client.rb:72-77 | `delete(id)` is a raw DELETE with no payload and no headers, for every id. For a single-segment id it addresses the media record of `id`. |
| Responses.HandleResponse | lib/ricohapi/mstorage/client.rb:100-117 | The result is a success only for statuses 200 to 299. A raw success returns the body verbatim. A decoded success happens exactly when the body loads; it gives the object's fields, or nil for non-object JSON. Otherwise the load error escapes. Every other status raises. A `Client::Error` names the status, which can be read back from its message. An unparsable error body gives `Unexpected response: <body>` after the status. A parsed body gives a `Client::Error` exactly when indexing it with `"reason"` does not raise, and its message is the status prefix followed by that reason. When indexing raises, that foreign error escapes; nothing else can be raised. |
| Responses.StatusError | lib/ricohapi/mstorage/client.rb:110-116 | The non-2xx branch. Any `Client::Error` it raises starts with `Status code <status>: `, and that status is recoverable from the text. An unparsable body gives the unexpected-response message. A parsed body gives a `Client::Error` exactly when its `reason` can be read, with message `Status code <status>: <reason>`. Otherwise the error of the failed lookup escapes. |
| Responses.ReasonText | lib/ricohapi/mstorage/client.rb:112 | `parsed["reason"]` as interpolated. It raises exactly when the parsed body is neither an object nor a string. An object with a string `reason` gives that string. A number gives its literal text, and a boolean gives `true` or `false`, as `to_s` renders them. An array or an object gives its `inspect` text. An object without `reason`, or with a `null` one, gives the empty text. A JSON string gives `String#[]`'s answer: `reason` when it contains that word, the empty text otherwise. |
| Responses.StatusPrefixRoundTrip | lib/ricohapi/mstorage/client.rb:112-114 | Whatever follows the prefix, parsing the message `Status code <n>: ...` gives back `n`, negative statuses included. |
| Responses.RawFlagOnlyMattersOnSuccess | lib/ricohapi/mstorage/client.rb:100-116 | For a non-2xx status, the raw and decoded readings raise the same error. |
| Routes.Recognize | lib/ricohapi/mstorage/client.rb:19-79 | A recognised verb and path name a well-formed endpoint that has that verb and whose path is exactly the given one. |
| Routes.RecognizeComplete | lib/ricohapi/mstorage/client.rb:19-79 | Every well-formed endpoint of the API is recognised from its own verb and path. Recognition and path building are inverse. |
| UserMeta.ValidBoundaries | lib/ricohapi/mstorage/client.rb:123-125 | `valid?` holds exactly for lengths 1 to 1024 inclusive. Lengths 0 and 1025 fail, and lengths 1 and 1024 pass. |
| UserMeta.ExactKeyNameMatches | lib/ricohapi/mstorage/client.rb:86 | A line is matched with capture `w` if and only if it is `user.` followed by `w`, where `w` has 1 to 256 characters from `[A-Za-z0-9_-]`. |
| UserMeta.FirstKeyName | lib/ricohapi/mstorage/client.rb:86 | The capture is a valid key name taken from a line `user.<name>` with no matching line before it. So it comes from the first matching line, and `user.a\nuser.b` captures `a`. There is none exactly when no line matches. |
| UserMeta.SingleLineCapture | lib/ricohapi/mstorage/client.rb:86 | On a key without line breaks, `$1` is `w` if and only if the key is `user.` followed by the key name `w`. |
| UserMeta.ExactKeyIsCapturedAndValid | lib/ricohapi/mstorage/client.rb:82-86 | A key that is exactly `user.<name>` is captured as `<name>` and always passes the length check. |
| UserMeta.CaptureLaterLine | lib/ricohapi/mstorage/client.rb:86 | A non-matching first line followed by a line `user.<name>` still yields `<name>`, because `^` matches after a line break. |
| UserMeta.KeyNameHasNoSlash | lib/ricohapi/mstorage/client.rb:86-88 | A captured key name is a single non-empty path segment. |
| MetaWrites.Puts | lib/ricohapi/mstorage/client.rb:81-88 | One PUT per entry, in the hash's order. Each PUT carries that entry's own path and value. |
| MetaWrites.WriteEntries | lib/ricohapi/mstorage/client.rb:81-90 | Starting from an issued history, the loop issues the PUTs of a prefix of entries, each let through by the loop's policy. It ends in one of three ways: success after every entry with every reply 2xx; the invalid-parameter error for the first rejected entry, before its PUT; or the error of the first failed reply, right after its PUT. |
| MetaWrites.AddMeta | lib/ricohapi/mstorage/client.rb:80-91 | `add_meta` issues at most one PUT per entry. It issues a prefix of the PUT list, and every issued entry has a present key whose length passes `valid?`. On success it returns `user_meta` itself after issuing every PUT. An empty hash issues nothing and succeeds. |
| MetaWrites.AddMetaStopsAtFirstInvalid | lib/ricohapi/mstorage/client.rb:81-84 | Suppose the `i`-th entry is the first one rejected and the earlier PUTs were answered 2xx. Then exactly the first `i` PUTs are issued and `Invalid parameter: {k => v}` is raised. |
| MetaWrites.AddMetaStopsAtFailedReply | lib/ricohapi/mstorage/client.rb:87-89 | Suppose the first failed reply comes after the `i + 1`-th PUT. Then exactly `i + 1` PUTs are issued and that reply's error is raised. |
| MetaWrites.AddMetaSucceeds | lib/ricohapi/mstorage/client.rb:80-91 | When every entry passes and every reply is 2xx, all PUTs are issued and `user_meta` is returned. |
| MetaWrites.AddMetaChecked | lib/ricohapi/mstorage/client.rb:79-91 | The corrected loop issues only entries whose key is `user.<name>` and whose value length passes `valid?`. It has the same prefix and success guarantees as `add_meta`. A rejected first entry raises before anything is issued. |
| MetaWrites.CheckedPutIsWellFormed | lib/ricohapi/mstorage/client.rb:79-88 | Each PUT of the corrected loop addresses `PUT /media/{id}/meta/user/{key}` for the entry's own key. Its body is the entry's value, and that value has an allowed length. |
| MetaWrites.CheckedWritesAreWellFormed | lib/ricohapi/mstorage/client.rb:79-88 | Every PUT the corrected loop issues writes a well-formed user key with a value of allowed length. |
| MetaSelectors.ParseSelector | lib/ricohapi/mstorage/client.rb:57-59 | A field name selects a well-formed metadata part, or is refused with an argument error naming it. A missing field name is never refused. |
| MetaSelectors.SelectorRoundTrip | lib/ricohapi/mstorage/client.rb:57-59 | Field names and selectable metadata parts correspond one to one, in both directions. |
| MetaSelectors.SelectorCall | lib/ricohapi/mstorage/client.rb:57-63 | Corrected `meta`. It refuses exactly the names the selector refuses, and otherwise issues a GET with no payload and no headers. Its path, for any id, is the path of the selected part of the media's metadata; for a single-segment id that path is recognised as exactly that endpoint. It is raw exactly for a single user key. |
| MetaSelectors.FixedSelectorPaths | spec/ricohapi/mstorage/client_spec.rb:53-87 | Without a field name, `meta` reads `media/{id}/meta`. `exif`, `gpano` and `user` read `media/{id}/meta/exif`, `/gpano` and `/user`, as the tests expect. `bogus` is refused. |
| MetaSelectors.UserKeySelectorPath | lib/ricohapi/mstorage/client.rb:57-58 | `user.title` reads `media/{id}/meta/user/title`, raw. |
| Scenarios.ListPaginationIsSentAsIs | spec/ricohapi/mstorage/client_spec.rb:18-31 | `list(after:, before:, limit:)` is a GET of `media` whose query is exactly those three parameters. |
| Scenarios.ListDropsUnknownKeys | lib/ricohapi/mstorage/client.rb:21-23 | An unknown key is dropped before the GET is built. |
| Scenarios.ListWithFilterSearches | lib/ricohapi/mstorage/client.rb:24-34 | A `:filter` with a `:limit` and an unknown string key gives the search POST with the dated version, the query, nil `before`/`after` and the given `limit`. |
| Scenarios.StringFilterKeyStaysGet | lib/ricohapi/mstorage/client.rb:22-24 | A string key `"filter"` passes the allow-list but is not the symbol `:filter`, so the call stays a GET with that key in its query. |
| Scenarios.RawCallsReturnBodyVerbatim | lib/ricohapi/mstorage/client.rb:100-105 | `download` and `delete` issue one request and return a 2xx body verbatim, the empty body included. |
| Scenarios.UnparsableErrorBody | lib/ricohapi/mstorage/client.rb:111-115 | A 500 with body `oops` raises `Status code 500: Unexpected response: oops`. |
| Scenarios.MediaIdsAreNotEscaped | lib/ricohapi/mstorage/client.rb:46-53 | `info("a/content")` issues the same request as `download("a")`. |
| Scenarios.MetaIgnoresFieldName | lib/ricohapi/mstorage/client.rb:59-63 | As written, `meta(id, "exif")` addresses the whole metadata document, not the exif part the corrected selector addresses. |
| Scenarios.SingleAcceptedEntryIsIssued | lib/ricohapi/mstorage/client.rb:81-89 | A one-entry hash whose key is present and passes `valid?` issues exactly that entry's PUT, whatever the reply. |
| Scenarios.EmptyValueIsWritten | lib/ricohapi/mstorage/client.rb:82 | As written, `{"user.a" => ""}` PUTs an empty body. The corrected loop rejects it before issuing anything. |
| Scenarios.TitleIsNotAUserKey | lib/ricohapi/mstorage/client.rb:86 | `title` does not match the key pattern. |
| Scenarios.EmptyKeyPathIsNoEndpoint | lib/ricohapi/mstorage/client.rb:88 | For every id, `PUT media/{id}/meta/user/` names no endpoint of the API. The path ends in `/`, and a key is never empty. |
| Scenarios.UnmatchedKeyWritesToUserCollection | lib/ricohapi/mstorage/client.rb:86-88 | As written, `{"title" => "x"}` PUTs `x` to `media/{id}/meta/user/`, which names no endpoint for any id. The corrected loop issues nothing. |

## Left out

- Transport and authentication: `initialize`, the access token and its HTTP
  calls are not modelled. The transport is the `Server` parameter.
- `endpoint_for`: joining the base URL onto a path is not modelled. Requests
  carry the path relative to the API root, and `Routes` reads those paths.
- The JSON library: `MultiJson.load`, `JSON.parse` and `to_s` of parsed values
  are fields of the `Codec` parameter. That covers what `MultiJson.load` does
  with a blank body and which texts parse.
- Serialisation: the search body is the structured `SearchDoc` and is not
  turned into text by `to_json`. `upload`'s multipart encoding is left to the
  transport, and the media value is carried as given.
- `remove_meta`: its body is empty and it returns nil. It issues nothing, so
  there is nothing to model.
- `handle_response`'s `retrying` parameter: it is never read.
- `list`: `reject!` also removes the dropped keys from the caller's own hash.
  That side effect on the argument is not modelled.
- Hash keys in `list` that are neither strings nor symbols: `to_sym` would
  raise `NoMethodError`. The `Key` type has only symbols and strings. The
  hash is a sequence of pairs, and a lookup reads the first entry with the
  key.
- `add_meta` keys and values: keys are strings (or `nil`) and values are
  strings. Symbol keys and the `to_s` of non-string values are not modelled.
- Error taxonomy: the client raises one `Client::Error` for every non-2xx
  status. It has no separate bad-request, unauthorised or not-found errors, no
  configuration error, and no argument error for an empty `add_meta` hash. The
  model follows the code.
- The search body key is spelled `search_veresion`, as in the code.
- Requests.InfoCall: the endpoint is stated only for ids that are one path
  segment. Scenarios.MediaIdsAreNotEscaped shows what other ids do.
- Requests.DownloadCall: the same single-segment restriction as `InfoCall`.
- Requests.MetaCall: the same single-segment restriction as `InfoCall`.
- Requests.DeleteCall: the same single-segment restriction as `InfoCall`. It
  covers the endpoint only; the verb, payload and headers are stated for every id.
- MetaSelectors.SelectorCall: the endpoint is stated only for single-segment
  ids. The path itself is stated for every id.

## Findings

| source | as written | input that shows it | evidently intended | confidence | as-written member | corrected member |
|---|---|---|---|---|---|---|
| lib/ricohapi/mstorage/client.rb:59-63 | `meta` ignores `field_name` and always reads `media/{id}/meta`. | `meta("media-id", "exif")` | Read `media/{id}/meta/exif`, as the method comment and the tests at spec/ricohapi/mstorage/client_spec.rb:62-87 expect. | not executed | Scenarios.MetaIgnoresFieldName | MetaSelectors.SelectorCall |
| lib/ricohapi/mstorage/client.rb:82 | The length check `valid?` is applied to the key, not the value. | `add_meta("media-id", {"user.a" => ""})` PUTs an empty value. | Check the value's length against the user-metadata bounds. | not executed | Scenarios.EmptyValueIsWritten | MetaWrites.AddMetaChecked |
| lib/ricohapi/mstorage/client.rb:86-88 | A key of valid length that does not match `user.<name>` leaves `$1` nil, and the PUT goes to `media/{id}/meta/user/`. | `add_meta("media-id", {"title" => "x"})` | Reject keys that are not `user.<name>` before issuing a PUT. | not executed | Scenarios.UnmatchedKeyWritesToUserCollection | MetaWrites.AddMetaChecked |

=== FILE: http.dfy ===
/**
 The shapes the client hands to its authenticated transport: a verb, a
 resource path (what the client passes to `endpoint_for`), a payload and
 headers, plus the status and body the transport gives back.
 */
module Http {
  import opened Results

  datatype Verb = Get | Post | Put | Delete

  /** A Ruby hash key as a caller may write it: a symbol or a string. */
  datatype Key = Sym(name: string) | Str(name: string)

  /** The `paging` object of a search body; a missing value is sent as `nil`. */
  datatype Paging<V> = Paging(before: Option<V>, after: Option<V>, limit: Option<V>)

  /** The JSON object posted to `media/search`, keyed as the client spells it. */
  datatype SearchDoc<V> = SearchDoc(versionKey: string, version: string, query: V, paging: Paging<V>)

  datatype Payload<V> =
    | NoPayload                              // a bare GET or DELETE
    | QueryParams(params: seq<(Key, V)>)     // GET with a query hash
    | SearchJson(doc: SearchDoc<V>)          // POST body serialised with `to_json`
    | Multipart(media: V)                    // the upload payload, encoded by the transport
    | PlainText(text: string)                // a user-metadata value

  type Header = (string, string)

  datatype Request<V> = Request(verb: Verb, path: string, payload: Payload<V>, headers: seq<Header>)

  /** A request together with the `as_raw` flag its response is handled with. */
  datatype Call<V> = Call(request: Request<V>, asRaw: bool)

  datatype Response = Response(status: int, body: string)

  /**
   The remote service as the client sees it: the response to the last
   request of a history of requests issued so far.
   */
  type Server<!V> = seq<Request<V>> -> Response
}

=== FILE: json_values.dfy ===
/**
 Parsed JSON values and the foreign JSON library. Parsing and Ruby's
 `inspect` of composite values are not modelled; a `Codec` supplies them.
 */
module JsonValues {
  import opened Results

  /** A parsed JSON value; a number carries the text Ruby's `to_s` gives it. */
  datatype Json =
    | JNull
    | JBool(b: bool)
    | JNumber(text: string)
    | JString(s: string)
    | JArray(items: seq<Json>)
    | JObject(fields: map<string, Json>)

  /**
   The JSON library: `load` is `MultiJson.load`, `parse` is `JSON.parse`
   (`None` when either raises its parse error), and `inspect` renders an
   array or object the way string interpolation does.
   */
  datatype Codec = Codec(load: string -> Option<Json>, parse: string -> Option<Json>, inspect: Json -> string)

  /** The text string interpolation produces for a parsed value. */
  function Show(codec: Codec, j: Json): string
  {
    match j
    case JNull => ""
    case JBool(b) => if b then "true" else "false"
    case JNumber(text) => text
    case JString(s) => s
    case JArray(_) => codec.inspect(j)
    case JObject(_) => codec.inspect(j)
  }
}

=== FILE: meta_selectors.dfy ===
/**
 The metadata read the `meta` method's comments and tests describe: the
 field name selects a sub-document (`exif`, `gpano`, `user`) or a single
 user key (`user.<name>`, read raw), and anything else is refused before a
 request is built.
 */
module MetaSelectors {
  import opened Results
  import opened Text
  import opened Http
  import opened Responses
  import opened Routes
  import opened UserMeta

  /** The field name read as a metadata part. */
  function ParseSelector(fieldName: Option<string>): (r: Result<MetaPart, Raised>)
    ensures r.Ok? ==> WellFormedPart(r.value)
    ensures r.Err? ==> fieldName.Some? && r.error == InvalidArgument(fieldName.value)
  {
    match fieldName
    case None => Ok(AllMeta)
    case Some(f) =>
      if f == "exif" then Ok(ExifMeta)
      else if f == "gpano" then Ok(GpanoMeta)
      else if f == "user" then Ok(UserDoc)
      else match ExactKeyName(f)
        case Some(w) =>
          ExactKeyNameMatches(f, w);
          KeyNameHasNoSlash(w);
          Ok(UserKeyMeta(w))
        case None => Err(InvalidArgument(f))
  }

  /** A metadata part a field name can select. */
  predicate Selectable(part: MetaPart)
  {
    part.UserKeyMeta? ==> IsKeyName(part.key)
  }

  /** The field name that selects a part. */
  function SelectorName(part: MetaPart): Option<string>
  {
    match part
    case AllMeta => None
    case ExifMeta => Some("exif")
    case GpanoMeta => Some("gpano")
    case UserDoc => Some("user")
    case UserKeyMeta(key) => Some(UserPrefix + key)
  }

  /** Field names and selectable parts correspond one to one. */
  lemma SelectorRoundTrip(fieldName: Option<string>, part: MetaPart)
    ensures ParseSelector(fieldName) == Ok(part) <==> Selectable(part) && SelectorName(part) == fieldName
  {
    if fieldName.Some? {
      var f := fieldName.value;
      if part.UserKeyMeta? {
        ExactKeyNameMatches(f, part.key);
      }
      match ExactKeyName(f)
      case Some(w) => ExactKeyNameMatches(f, w);
      case None =>
    }
  }

  /** A selected part of a single-segment media id's metadata is recognised from its path. */
  lemma SelectedPartRecognized(id: string, part: MetaPart)
    requires WellFormedPart(part)
    ensures IsSegment(id) ==> Recognize(Get, PathOf(GetMeta(id, part))) == Some(GetMeta(id, part))
  {
    if IsSegment(id) {
      RecognizeComplete(GetMeta(id, part));
    }
  }

  /** `meta(id, field_name)` dispatching on the field name; a refused name builds no request. */
  function SelectorCall<V>(id: string, fieldName: Option<string>): (r: Result<Call<V>, Raised>)
    ensures r.Err? <==> ParseSelector(fieldName).Err?
    ensures r.Err? ==> r.error == InvalidArgument(fieldName.value)
    ensures r.Ok? ==> r.value.request.verb == Get && r.value.request.payload == NoPayload && r.value.request.headers == []
    ensures r.Ok? ==> (r.value.asRaw <==> ParseSelector(fieldName).value.UserKeyMeta?)
    ensures r.Ok? ==> r.value.request.path == PathOf(GetMeta(id, ParseSelector(fieldName).value))
    ensures r.Ok? && IsSegment(id) ==> EndpointOf(r.value.request) == Some(GetMeta(id, ParseSelector(fieldName).value))
  {
    match ParseSelector(fieldName)
    case Err(e) => Err(e)
    case Ok(part) =>
      SelectedPartRecognized(id, part);
      Ok(Call(Request(Get, PathOf(GetMeta(id, part)), NoPayload, []), part.UserKeyMeta?))
  }

  /** The fixed field names select their sub-documents; an unknown name is refused. */
  lemma FixedSelectorPaths<V>(id: string)
    ensures SelectorCall<V>(id, None) == Ok(Call(Request(Get, "media/" + id + "/meta", NoPayload, []), false))
    ensures SelectorCall<V>(id, Some("exif")) == Ok(Call(Request(Get, "media/" + id + "/meta/exif", NoPayload, []), false))
    ensures SelectorCall<V>(id, Some("gpano")) == Ok(Call(Request(Get, "media/" + id + "/meta/gpano", NoPayload, []), false))
    ensures SelectorCall<V>(id, Some("user")) == Ok(Call(Request(Get, "media/" + id + "/meta/user", NoPayload, []), false))
    ensures SelectorCall<V>(id, Some("bogus")) == Err(InvalidArgument("bogus"))
  {
    MediaPaths(id);
    MetaPaths(id, "");
    assert ParseSelector(Some("exif")) == Ok(ExifMeta);
    assert ParseSelector(Some("gpano")) == Ok(GpanoMeta);
    assert ParseSelector(Some("user")) == Ok(UserDoc);
    assert !StartsWith("bogus", UserPrefix) by {
      assert "bogus"[0] != UserPrefix[0];
    }
    assert ParseSelector(Some("bogus")) == Err(InvalidArgument("bogus"));
  }

  /** `user.<name>` selects that one user key, read raw. */
  lemma UserKeySelectorPath<V>(id: string)
    ensures SelectorCall<V>(id, Some("user.title")) ==
      Ok(Call(Request(Get, "media/" + id + "/meta/user/title", NoPayload, []), true))
  {
    MetaPaths(id, "title");
    ExactKeyNameMatches("user.title", "title");
    assert IsKeyName("title");
    assert "media/" + id + "/meta/user/" + "title" == "media/" + id + "/meta/user/title";
    assert ParseSelector(Some("user.title")) == Ok(UserKeyMeta("title"));
  }
}

=== FILE: meta_writes.dfy ===
/**
 `add_meta`: one PUT per user-metadata entry, in the hash's order, each
 checked just before it is sent. A rejected entry or a failed reply ends
 the loop; the PUTs already issued stay issued.
 */
module MetaWrites {
  import opened Results
  import opened JsonValues
  import opened Http
  import opened Responses
  import opened Routes
  import opened UserMeta

  /** One entry of the user-metadata hash; a `nil` key is `None`. */
  datatype MetaEntry = MetaEntry(key: Option<string>, value: string)

  /** Which entries the write loop lets through. */
  datatype Policy =
    | AsWritten  // `add_meta`: the key is present and its length passes `valid?`
    | Checked    // a `user.<name>` key and a value whose length passes `valid?`

  predicate Accepts(policy: Policy, e: MetaEntry)
  {
    match policy
    case AsWritten => e.key.Some? && Valid(e.key.value)
    case Checked => e.key.Some? && ExactKeyName(e.key.value).Some? && Valid(e.value)
  }

  const TextContentType: Header := ("Content-Type", "text/plain")

  /** `$1` as interpolated into the path: the captured name, or nothing when the key does not match. */
  function CapturedName(e: MetaEntry): string
  {
    if e.key.None? then ""
    else match Capture(e.key.value)
      case Some(w) => w
      case None => ""
  }

  /** The PUT issued for an accepted entry. */
  function PutFor<V>(id: string, e: MetaEntry): Request<V>
  {
    Request(Put, "media/" + id + "/meta/user/" + CapturedName(e), PlainText(e.value), [TextContentType])
  }

  /** The PUTs for a run of entries, in order. */
  function Puts<V>(id: string, es: seq<MetaEntry>): (r: seq<Request<V>>)
    ensures |r| == |es|
    ensures forall i :: 0 <= i < |es| ==> r[i] == PutFor(id, es[i])
    decreases |es|
  {
    if |es| == 0 then [] else [PutFor(id, es[0])] + Puts(id, es[1..])
  }

  /** The message of the error raised for a rejected entry. */
  function RejectMessage(e: MetaEntry): string
  {
    "Invalid parameter: {" + (if e.key.Some? then e.key.value else "") + " => " + e.value + "}"
  }

  /** How the client reads the reply to the last request of a history. */
  function Reply<V>(codec: Codec, server: Server<V>, history: seq<Request<V>>): Result<Value, Raised>
  {
    HandleResponse(codec, server(history), true)
  }

  /** The reply to the last request of `history` has a 2xx status. */
  predicate Answered<V>(server: Server<V>, history: seq<Request<V>>)
  {
    IsSuccess(server(history).status)
  }

  /** A raw reading succeeds exactly on a 2xx reply. */
  lemma ReplyOk<V>(codec: Codec, server: Server<V>, history: seq<Request<V>>)
    ensures Reply(codec, server, history).Ok? <==> Answered(server, history)
  {
  }

  /** Every request of `issued` after the first `from` and up to the `to`-th got a 2xx reply. */
  ghost predicate Acked<V>(server: Server<V>, issued: seq<Request<V>>, from: nat, to: nat)
  {
    forall j :: from < j <= to && j <= |issued| ==> Answered(server, issued[..j])
  }

  /** Every entry of `es` is let through by the policy. */
  ghost predicate AllAccepted(policy: Policy, es: seq<MetaEntry>)
  {
    forall j :: 0 <= j < |es| ==> Accepts(policy, es[j])
  }

  /** `t` issued `sent` followed by the PUTs of an accepted prefix of `entries`. */
  ghost predicate IssuesAcceptedPrefix<V>(policy: Policy, entries: seq<MetaEntry>, puts: seq<Request<V>>,
                                          sent: seq<Request<V>>, t: Trace<V, ()>)
    requires |puts| == |entries|
  {
    && |sent| <= |t.issued| <= |sent| + |entries|
    && t.issued == sent + puts[..|t.issued| - |sent|]
    && AllAccepted(policy, entries[..|t.issued| - |sent|])
  }

  /**
   `t` ended the way the loop ends: success after every entry with every
   reply 2xx; an error for the first rejected entry, before its PUT; or
   the error of the first failed reply, right after its PUT.
   */
  ghost predicate EndsProperly<V>(policy: Policy, codec: Codec, entries: seq<MetaEntry>,
                                  server: Server<V>, sent: seq<Request<V>>, t: Trace<V, ()>)
    requires |sent| <= |t.issued|
  {
    var n := |t.issued| - |sent|;
    && (t.outcome.Ok? ==> n == |entries| && Acked(server, t.issued, |sent|, |t.issued|))
    && (t.outcome.Err? ==>
      || (&& n < |entries|
          && !Accepts(policy, entries[n])
          && t.outcome.error == ClientError(RejectMessage(entries[n]))
          && Acked(server, t.issued, |sent|, |t.issued|))
      || (&& n > 0
          && Reply(codec, server, t.issued) == Err(t.outcome.error)
          && Acked(server, t.issued, |sent|, |t.issued| - 1)))
  }

  ghost predicate IsRun<V>(policy: Policy, codec: Codec, entries: seq<MetaEntry>, puts: seq<Request<V>>,
                           server: Server<V>, sent: seq<Request<V>>, t: Trace<V, ()>)
    requires |puts| == |entries|
  {
    IssuesAcceptedPrefix(policy, entries, puts, sent, t) && EndsProperly(policy, codec, entries, server, sent, t)
  }

  /** The issued prefix of the rest, behind the first entry's PUT, is an issued prefix of the whole. */
  lemma PrefixStep<V>(policy: Policy, entries: seq<MetaEntry>, puts: seq<Request<V>>, sent: seq<Request<V>>, t: Trace<V, ()>)
    requires |puts| == |entries| > 0 && Accepts(policy, entries[0])
    requires IssuesAcceptedPrefix(policy, entries[1..], puts[1..], sent + [puts[0]], t)
    ensures IssuesAcceptedPrefix(policy, entries, puts, sent, t)
  {
    var next := sent + [puts[0]];
    var m := |t.issued| - |next|;
    assert puts[..m + 1] == [puts[0]] + puts[1..][..m];
    assert t.issued == sent + puts[..m + 1];
    var s := entries[..m + 1];
    assert forall j :: 1 <= j < |s| ==> s[j] == entries[1..][..m][j - 1];
  }

  /** The reply to the request after the first `from` joins the acknowledged ones. */
  lemma AckedStep<V>(server: Server<V>, issued: seq<Request<V>>, from: nat, to: nat)
    requires from < |issued|
    requires Answered(server, issued[..from + 1])
    requires Acked(server, issued, from + 1, to)
    ensures Acked(server, issued, from, to)
  {
  }

  /** The ending of a run of the rest, after an acknowledged first PUT, is an ending of the whole. */
  lemma EndsStep<V>(policy: Policy, codec: Codec, entries: seq<MetaEntry>, puts: seq<Request<V>>,
                    server: Server<V>, sent: seq<Request<V>>, t: Trace<V, ()>)
    requires |puts| == |entries| > 0
    requires |sent| < |t.issued| && t.issued[..|sent| + 1] == sent + [puts[0]]
    requires Answered(server, sent + [puts[0]])
    requires EndsProperly(policy, codec, entries[1..], server, sent + [puts[0]], t)
    ensures EndsProperly(policy, codec, entries, server, sent, t)
  {
    var n := |t.issued| - |sent|;
    if n - 1 < |entries[1..]| {
      assert entries[1..][n - 1] == entries[n];
    }
    if t.outcome.Ok? || Acked(server, t.issued, |sent| + 1, |t.issued|) {
      AckedStep(server, t.issued, |sent|, |t.issued|);
    } else {
      AckedStep(server, t.issued, |sent|, |t.issued| - 1);
    }
  }

  /** Running the rest after an accepted, acknowledged entry is a run of the whole. */
  lemma RunStep<V>(policy: Policy, codec: Codec, entries: seq<MetaEntry>, puts: seq<Request<V>>,
                   server: Server<V>, sent: seq<Request<V>>, t: Trace<V, ()>)
    requires |puts| == |entries| > 0 && Accepts(policy, entries[0])
    requires Answered(server, sent + [puts[0]])
    requires IsRun(policy, codec, entries[1..], puts[1..], server, sent + [puts[0]], t)
    ensures IsRun(policy, codec, entries, puts, server, sent, t)
  {
    var next := sent + [puts[0]];
    PrefixStep(policy, entries, puts, sent, t);
    assert t.issued[..|next|] == next;
    EndsStep(policy, codec, entries, puts, server, sent, t);
  }

  /**
   The loop of `add_meta` from the point where `sent` has been issued;
   `puts[i]` is the PUT of `entries[i]`. It issues the PUTs of an accepted
   prefix of `entries` and stops at the first rejected entry (before its
   PUT) or the first failed reply (after it).
   */
  function WriteEntries<V>(policy: Policy, codec: Codec, entries: seq<MetaEntry>, puts: seq<Request<V>>,
                           server: Server<V>, sent: seq<Request<V>>): (t: Trace<V, ()>)
    requires |puts| == |entries|
    ensures IsRun(policy, codec, entries, puts, server, sent, t)
    decreases |entries|
  {
    if |entries| == 0 then
      assert entries[..0] == [];
      Trace(sent, Ok(()))
    else
      var e := entries[0];
      if !Accepts(policy, e) then
        assert entries[..0] == [];
        Trace(sent, Err(ClientError(RejectMessage(e))))
      else
        var next := sent + [puts[0]];
        match Reply(codec, server, next)
        case Err(x) =>
          assert entries[..1] == [e];
          Trace(next, Err(x))
        case Ok(_) =>
          ReplyOk(codec, server, next);
          var t := WriteEntries(policy, codec, entries[1..], puts[1..], server, next);
          RunStep(policy, codec, entries, puts, server, sent, t);
          t
  }

  /** `add_meta(id, user_meta)` against a server; on success it returns `user_meta` itself. */
  function AddMeta<V>(codec: Codec, id: string, userMeta: seq<MetaEntry>, server: Server<V>): (t: Trace<V, seq<MetaEntry>>)
    ensures |t.issued| <= |userMeta|
    ensures t.issued == Puts(id, userMeta)[..|t.issued|]
    ensures forall j :: 0 <= j < |t.issued| ==> Accepts(AsWritten, userMeta[j])
    ensures t.outcome.Ok? ==> t.outcome.value == userMeta && t.issued == Puts(id, userMeta)
    ensures |userMeta| == 0 ==> t.issued == [] && t.outcome == Ok(userMeta)
  {
    var puts := Puts(id, userMeta);
    var run := WriteEntries(AsWritten, codec, userMeta, puts, server, []);
    var n := |run.issued|;
    assert run.issued == puts[..n];
    assert forall j :: 0 <= j < n ==> userMeta[..n][j] == userMeta[j];
    assert puts[..|puts|] == puts;
    Trace(run.issued, match run.outcome case Ok(_) => Ok(userMeta) case Err(e) => Err(e))
  }

  /** What `add_meta` returns, in terms of the run of its loop. */
  lemma AddMetaOfRun<V>(codec: Codec, id: string, userMeta: seq<MetaEntry>, server: Server<V>)
    ensures var run := WriteEntries(AsWritten, codec, userMeta, Puts(id, userMeta), server, []);
      var t := AddMeta(codec, id, userMeta, server);
      && t.issued == run.issued
      && (run.outcome.Err? ==> t.outcome == Err(run.outcome.error))
  {
  }

  /** Every reply to the first `k` PUTs of `userMeta` is a 2xx. */
  ghost predicate RepliesOk<V>(server: Server<V>, id: string, userMeta: seq<MetaEntry>, k: nat)
  {
    forall j :: 0 < j <= k && j <= |userMeta| ==> Answered(server, Puts(id, userMeta)[..j])
  }

  /** An accepted prefix ends at or before any rejected entry. */
  lemma AcceptedPrefixBound(policy: Policy, es: seq<MetaEntry>, n: nat, i: nat)
    requires n <= |es| && i < |es|
    requires AllAccepted(policy, es[..n]) && !Accepts(policy, es[i])
    ensures n <= i
  {
  }

  /** A run's acknowledged replies are replies to prefixes of the PUT list. */
  lemma AckedPrefix<V>(server: Server<V>, puts: seq<Request<V>>, n: nat, to: nat)
    requires n <= |puts| && to <= n
    requires Acked(server, puts[..n], 0, to)
    ensures forall j :: 0 < j <= to ==> Answered(server, puts[..j])
  {
    forall j | 0 < j <= to ensures Answered(server, puts[..j]) {
      assert puts[..n][..j] == puts[..j];
    }
  }

  /**
   When the `i`-th entry is the first one `valid?` refuses and the earlier
   PUTs were all answered 2xx, exactly those earlier PUTs are issued and the
   call raises the invalid-parameter error.
   */
  lemma {:induction false} AddMetaStopsAtFirstInvalid<V>(codec: Codec, id: string, userMeta: seq<MetaEntry>,
                                                         server: Server<V>, i: nat)
    requires i < |userMeta| && !Accepts(AsWritten, userMeta[i])
    requires forall j :: 0 <= j < i ==> Accepts(AsWritten, userMeta[j])
    requires RepliesOk(server, id, userMeta, i)
    ensures AddMeta(codec, id, userMeta, server) == Trace(Puts(id, userMeta)[..i], Err(ClientError(RejectMessage(userMeta[i]))))
  {
    var puts := Puts(id, userMeta);
    var run := WriteEntries(AsWritten, codec, userMeta, puts, server, []);
    var n := |run.issued|;
    assert run.issued == puts[..n];
    AcceptedPrefixBound(AsWritten, userMeta, n, i);
    assert n > 0 ==> Answered(server, puts[..n]);
  }

  /** A run that meets a failed reply after `i` acknowledged PUTs stops right there. */
  lemma FailedReplyRun<V>(codec: Codec, server: Server<V>, entries: seq<MetaEntry>, puts: seq<Request<V>>,
                          run: Trace<V, ()>, i: nat)
    requires |puts| == |entries| && i < |entries|
    requires IsRun(AsWritten, codec, entries, puts, server, [], run)
    requires forall j :: 0 <= j <= i ==> Accepts(AsWritten, entries[j])
    requires forall j :: 0 < j <= i ==> Answered(server, puts[..j])
    requires !Answered(server, puts[..i + 1])
    ensures run.issued == puts[..i + 1] && run.outcome == Err(Reply(codec, server, puts[..i + 1]).error)
  {
    var n := |run.issued|;
    assert run.issued == puts[..n];
    if run.outcome.Ok? {
      AckedPrefix(server, puts, n, n);
      assert false;
    } else if n < |entries| && !Accepts(AsWritten, entries[n]) && Acked(server, run.issued, 0, n) {
      AckedPrefix(server, puts, n, n);
      assert false;
    } else {
      AckedPrefix(server, puts, n, n - 1);
      ReplyOk(codec, server, puts[..n]);
      assert n == i + 1;
    }
  }

  /**
   When the first `i + 1` entries pass `valid?`, the first `i` PUTs are
   answered 2xx and the `i + 1`-th is not, exactly those `i + 1` PUTs are
   issued and the call raises what the failed reply raised.
   */
  lemma {:induction false} AddMetaStopsAtFailedReply<V>(codec: Codec, id: string, userMeta: seq<MetaEntry>,
                                                        server: Server<V>, i: nat)
    requires i < |userMeta|
    requires forall j :: 0 <= j <= i ==> Accepts(AsWritten, userMeta[j])
    requires RepliesOk(server, id, userMeta, i)
    requires !IsSuccess(server(Puts(id, userMeta)[..i + 1]).status)
    ensures AddMeta(codec, id, userMeta, server) ==
      Trace(Puts(id, userMeta)[..i + 1], Err(Reply(codec, server, Puts(id, userMeta)[..i + 1]).error))
  {
    var puts := Puts(id, userMeta);
    var run := WriteEntries(AsWritten, codec, userMeta, puts, server, []);
    FailedReplyRun(codec, server, userMeta, puts, run, i);
    AddMetaOfRun(codec, id, userMeta, server);
  }

  /** When every entry passes `valid?` and every PUT is answered 2xx, all are issued and `user_meta` is returned. */
  lemma {:induction false} AddMetaSucceeds<V>(codec: Codec, id: string, userMeta: seq<MetaEntry>, server: Server<V>)
    requires forall j :: 0 <= j < |userMeta| ==> Accepts(AsWritten, userMeta[j])
    requires RepliesOk(server, id, userMeta, |userMeta|)
    ensures AddMeta(codec, id, userMeta, server) == Trace(Puts(id, userMeta), Ok(userMeta))
  {
    var puts := Puts(id, userMeta);
    var run := WriteEntries(AsWritten, codec, userMeta, puts, server, []);
    var n := |run.issued|;
    assert run.issued == puts[..n];
    assert puts[..|puts|] == puts;
  }

  /**
   The write loop with the evidently intended checks: the key must be
   `user.<name>` and the value's length must pass `valid?`.
   */
  function AddMetaChecked<V>(codec: Codec, id: string, userMeta: seq<MetaEntry>, server: Server<V>): (t: Trace<V, seq<MetaEntry>>)
    ensures |t.issued| <= |userMeta|
    ensures t.issued == Puts(id, userMeta)[..|t.issued|]
    ensures forall j :: 0 <= j < |t.issued| ==> Accepts(Checked, userMeta[j])
    ensures t.outcome.Ok? ==> t.outcome.value == userMeta && t.issued == Puts(id, userMeta)
    ensures |userMeta| > 0 && !Accepts(Checked, userMeta[0]) ==> t == Trace([], Err(ClientError(RejectMessage(userMeta[0]))))
  {
    var puts := Puts(id, userMeta);
    var run := WriteEntries(Checked, codec, userMeta, puts, server, []);
    var n := |run.issued|;
    assert run.issued == puts[..n];
    assert forall j :: 0 <= j < n ==> userMeta[..n][j] == userMeta[j];
    assert puts[..|puts|] == puts;
    Trace(run.issued, match run.outcome case Ok(_) => Ok(userMeta) case Err(e) => Err(e))
  }

  /** The PUT of an entry the checked loop accepts addresses that entry's own key. */
  lemma CheckedPutIsWellFormed<V>(id: string, e: MetaEntry)
    requires IsSegment(id) && Accepts(Checked, e)
    ensures IsKeyName(CapturedName(e))
    ensures e.key == Some(UserPrefix + CapturedName(e))
    ensures EndpointOf(PutFor<V>(id, e)) == Some(PutUserMeta(id, CapturedName(e)))
    ensures PutFor<V>(id, e).payload == PlainText(e.value) && Valid(e.value)
  {
    var key := e.key.value;
    var w := ExactKeyName(key).value;
    ExactKeyIsCapturedAndValid(key, w);
    ExactKeyNameMatches(key, w);
    KeyNameHasNoSlash(w);
    MetaPaths(id, w);
    RecognizeComplete(PutUserMeta(id, w));
  }

  /** Every PUT the checked loop issues writes a well-formed user key with a value of allowed length. */
  lemma CheckedWritesAreWellFormed<V>(codec: Codec, id: string, userMeta: seq<MetaEntry>, server: Server<V>)
    requires IsSegment(id)
    ensures var t := AddMetaChecked(codec, id, userMeta, server);
      forall j :: 0 <= j < |t.issued| ==>
        && IsKeyName(CapturedName(userMeta[j]))
        && EndpointOf(t.issued[j]) == Some(PutUserMeta(id, CapturedName(userMeta[j])))
        && t.issued[j].payload == PlainText(userMeta[j].value)
        && Valid(userMeta[j].value)
  {
    var t := AddMetaChecked(codec, id, userMeta, server);
    forall j | 0 <= j < |t.issued|
      ensures IsKeyName(CapturedName(userMeta[j]))
      ensures EndpointOf(t.issued[j]) == Some(PutUserMeta(id, CapturedName(userMeta[j])))
      ensures t.issued[j].payload == PlainText(userMeta[j].value) && Valid(userMeta[j].value)
    {
      CheckedPutIsWellFormed<V>(id, userMeta[j]);
      assert t.issued[j] == PutFor(id, userMeta[j]);
    }
  }
}

=== FILE: requests.dfy ===
/**
 The request each public method of the client builds before handing it to
 the transport. Paths are the strings given to `endpoint_for`; joining
 them onto the base URL is not modelled.
 */
module Requests {
  import opened Results
  import opened Http
  import opened Routes

  const SearchVersion: string := "2016-07-08"
  /** The key the search body uses for the version tag, spelled as the client spells it. */
  const SearchVersionKey: string := "search_veresion"
  /** The only keys `list` keeps, as symbol names. */
  const ListKeys: set<string> := {"after", "before", "limit", "filter"}
  const JsonContentType: Header := ("Content-Type", "application/json")

  /** `k.to_sym`: a string key names the symbol of the same name. */
  function SymbolOf(k: Key): string
  {
    k.name
  }

  predicate IsListKey(k: Key)
  {
    SymbolOf(k) in ListKeys
  }

  /** The `reject!` in `list`: drop every entry whose key is not an allowed symbol. */
  function FilterListParams<V(==,!new)>(params: seq<(Key, V)>): (kept: seq<(Key, V)>)
    ensures forall i :: 0 <= i < |kept| ==> IsListKey(kept[i].0)
    ensures forall e :: e in kept <==> e in params && IsListKey(e.0)
    ensures |kept| <= |params|
    decreases |params|
  {
    if |params| == 0 then []
    else
      var rest := FilterListParams(params[1..]);
      assert forall e :: e in params <==> e == params[0] || e in params[1..];
      if IsListKey(params[0].0) then [params[0]] + rest else rest
  }

  /** Filtering works entry by entry, so it keeps the caller's order. */
  lemma {:induction false} FilterAppend<V(!new)>(a: seq<(Key, V)>, b: seq<(Key, V)>)
    ensures FilterListParams(a + b) == FilterListParams(a) + FilterListParams(b)
    decreases |a|
  {
    if |a| > 0 {
      assert (a + b)[1..] == a[1..] + b;
      FilterAppend(a[1..], b);
    } else {
      assert a + b == b;
    }
  }

  /** Filtering an already filtered hash changes nothing. */
  lemma {:induction false} FilterIdempotent<V(!new)>(params: seq<(Key, V)>)
    ensures FilterListParams(FilterListParams(params)) == FilterListParams(params)
    decreases |params|
  {
    if |params| > 0 {
      FilterIdempotent(params[1..]);
      var rest := FilterListParams(params[1..]);
      if IsListKey(params[0].0) {
        assert ([params[0]] + rest)[1..] == rest;
      }
    }
  }

  /** `params[key]`: the value stored under exactly this key. */
  function Lookup<V>(params: seq<(Key, V)>, key: Key): (r: Option<V>)
    ensures r.None? <==> forall i :: 0 <= i < |params| ==> params[i].0 != key
    ensures r.Some? ==> exists i :: 0 <= i < |params| && params[i] == (key, r.value)
    decreases |params|
  {
    if |params| == 0 then None
    else if params[0].0 == key then Some(params[0].1)
    else
      var r := Lookup(params[1..], key);
      assert forall i :: 1 <= i < |params| ==> params[i] == params[1..][i - 1];
      r
  }

  /** An allowed key is looked up in the filtered hash exactly as in the caller's. */
  lemma {:induction false} LookupFiltered<V(!new)>(params: seq<(Key, V)>, key: Key)
    requires IsListKey(key)
    ensures Lookup(FilterListParams(params), key) == Lookup(params, key)
    decreases |params|
  {
    if |params| > 0 {
      LookupFiltered(params[1..], key);
      var rest := FilterListParams(params[1..]);
      if IsListKey(params[0].0) {
        assert ([params[0]] + rest)[1..] == rest;
      }
    }
  }

  /** `list(params)`: a search POST when a `:filter` survives, a plain GET otherwise. */
  function ListCall<V(==,!new)>(params: seq<(Key, V)>): (c: Call<V>)
    ensures !c.asRaw
    ensures Lookup(params, Sym("filter")).Some? ==>
      c.request == Request(Post, "media/search",
        SearchJson(SearchDoc(SearchVersionKey, SearchVersion, Lookup(params, Sym("filter")).value,
          Paging(Lookup(params, Sym("before")), Lookup(params, Sym("after")), Lookup(params, Sym("limit"))))),
        [JsonContentType])
    ensures Lookup(params, Sym("filter")).None? ==>
      c.request == Request(Get, "media", QueryParams(FilterListParams(params)), [])
    ensures EndpointOf(c.request) == Some(if Lookup(params, Sym("filter")).Some? then SearchMedia else ListMedia)
  {
    var kept := FilterListParams(params);
    LookupFiltered(params, Sym("filter"));
    match Lookup(kept, Sym("filter"))
    case Some(filter) =>
      LookupFiltered(params, Sym("before"));
      LookupFiltered(params, Sym("after"));
      LookupFiltered(params, Sym("limit"));
      FixedPaths();
      RecognizeComplete(SearchMedia);
      var paging := Paging(Lookup(kept, Sym("before")), Lookup(kept, Sym("after")), Lookup(kept, Sym("limit")));
      Call(Request(Post, "media/search", SearchJson(SearchDoc(SearchVersionKey, SearchVersion, filter, paging)), [JsonContentType]), false)
    case None =>
      FixedPaths();
      RecognizeComplete(ListMedia);
      Call(Request(Get, "media", QueryParams(kept), []), false)
  }

  /** The paths the client interpolates a media id into name the intended endpoints. */
  lemma MediaPathsRecognized(id: string)
    ensures IsSegment(id) ==> Recognize(Get, "media/" + id) == Some(MediaInfo(id))
    ensures IsSegment(id) ==> Recognize(Delete, "media/" + id) == Some(DeleteMedia(id))
    ensures IsSegment(id) ==> Recognize(Get, "media/" + id + "/content") == Some(MediaContent(id))
    ensures IsSegment(id) ==> Recognize(Get, "media/" + id + "/meta") == Some(GetMeta(id, AllMeta))
  {
    MediaPaths(id);
    if IsSegment(id) {
      RecognizeComplete(MediaInfo(id));
      RecognizeComplete(DeleteMedia(id));
      RecognizeComplete(MediaContent(id));
      RecognizeComplete(GetMeta(id, AllMeta));
    }
  }

  /** `info(id)`: a decoded GET of the media's record. */
  function InfoCall<V>(id: string): (c: Call<V>)
    ensures !c.asRaw && c.request.verb == Get && c.request.payload == NoPayload && c.request.headers == []
    ensures IsSegment(id) ==> EndpointOf(c.request) == Some(MediaInfo(id))
  {
    var path := "media/" + id;
    MediaPathsRecognized(id);
    Call(Request(Get, path, NoPayload, []), false)
  }

  /** `download(id)`: a raw GET of the media's content. */
  function DownloadCall<V>(id: string): (c: Call<V>)
    ensures c.asRaw && c.request.verb == Get && c.request.payload == NoPayload && c.request.headers == []
    ensures IsSegment(id) ==> EndpointOf(c.request) == Some(MediaContent(id))
  {
    var path := "media/" + id + "/content";
    MediaPathsRecognized(id);
    Call(Request(Get, path, NoPayload, []), true)
  }

  /** `meta(id, field_name)`: always the whole metadata document; the field name is not used. */
  function MetaCall<V>(id: string, fieldName: Option<string>): (c: Call<V>)
    ensures !c.asRaw && c.request.verb == Get && c.request.payload == NoPayload && c.request.headers == []
    ensures IsSegment(id) ==> EndpointOf(c.request) == Some(GetMeta(id, AllMeta))
  {
    var path := "media/" + id + "/meta";
    MediaPathsRecognized(id);
    Call(Request(Get, path, NoPayload, []), false)
  }

  /** `upload(media)`: a decoded POST carrying the media as given. */
  function UploadCall<V>(media: V): (c: Call<V>)
    ensures !c.asRaw && c.request.verb == Post && c.request.payload == Multipart(media) && c.request.headers == []
    ensures EndpointOf(c.request) == Some(UploadMedia)
  {
    FixedPaths();
    RecognizeComplete(UploadMedia);
    Call(Request(Post, "media", Multipart(media), []), false)
  }

  /** `delete(id)`: a raw DELETE of the media. */
  function DeleteCall<V>(id: string): (c: Call<V>)
    ensures c.asRaw && c.request.verb == Delete && c.request.payload == NoPayload && c.request.headers == []
    ensures IsSegment(id) ==> EndpointOf(c.request) == Some(DeleteMedia(id))
  {
    var path := "media/" + id;
    MediaPathsRecognized(id);
    Call(Request(Delete, path, NoPayload, []), true)
  }
}

=== FILE: responses.dfy ===
/**
 `handle_response`: how a status and a body become either the value a
 client method returns or the exception it raises.
 */
module Responses {
  import opened Results
  import opened Text
  import opened JsonValues
  import opened Http

  /** What a client method returns on success. */
  datatype Value =
    | RawBody(text: string)                  // the body as received (`as_raw`)
    | Document(fields: map<string, Json>)    // a decoded JSON object, with indifferent access
    | NilValue                               // decoded JSON that is not an object

  /** Exceptions that escape `handle_response` without being `Client::Error`. */
  datatype Foreign =
    | LoadFailed           // `MultiJson::ParseError` from a success body
    | ReasonLookupFailed   // `TypeError` or `NoMethodError` from indexing a non-object with "reason"

  /** What a client method can raise. */
  datatype Raised =
    | ClientError(message: string)     // `RicohAPI::MStorage::Client::Error`
    | ForeignError(kind: Foreign)
    | InvalidArgument(argument: string) // a rejected meta selector (corrected model only)

  /** `Trace`: the requests a call issued, in order, and how it ended. */
  datatype Trace<V, T> = Trace(issued: seq<Request<V>>, outcome: Result<T, Raised>)

  /** The range `200...300` the success branch tests. */
  predicate IsSuccess(status: int)
  {
    200 <= status < 300
  }

  const StatusLead: string := "Status code "

  /** The text every status error message starts with. */
  function StatusPrefix(status: int): string
  {
    StatusLead + IntText(status) + ": "
  }

  /** The status a `Status code <n>: ...` message reports, read back from its text. */
  function StatusOfMessage(message: string): Option<int>
  {
    if StartsWith(message, StatusLead) then ParseInt(Split(message[|StatusLead|..], ':')[0])
    else None
  }

  /** The status embedded in an error message can always be recovered from it. */
  lemma {:induction false} StatusPrefixRoundTrip(status: int, rest: string)
    ensures StartsWith(StatusPrefix(status) + rest, StatusLead)
    ensures StatusOfMessage(StatusPrefix(status) + rest) == Some(status)
  {
    var digits := IntText(status);
    var message := StatusPrefix(status) + rest;
    assert message == StatusLead + (digits + [':'] + (" " + rest));
    assert message[..|StatusLead|] == StatusLead;
    assert message[|StatusLead|..] == digits + [':'] + (" " + rest);
    FirstPiece(digits, ':', " " + rest);
    IntTextRoundTrip(status);
  }

  /**
   `JSON.parse(body)["reason"]` as interpolated into the message: an
   object gives its `reason` member (or nothing), a string gives
   `String#[]`'s substring answer, and anything else raises.
   */
  function ReasonText(codec: Codec, j: Json): (r: Option<string>)
    ensures r.None? <==> !(j.JObject? || j.JString?)
    ensures j.JObject? && "reason" in j.fields && j.fields["reason"].JString? ==> r == Some(j.fields["reason"].s)
    ensures j.JObject? && "reason" !in j.fields ==> r == Some("")
    ensures j.JObject? && "reason" in j.fields && j.fields["reason"].JNull? ==> r == Some("")
    ensures j.JObject? && "reason" in j.fields && j.fields["reason"].JNumber? ==> r == Some(j.fields["reason"].text)
    ensures j.JObject? && "reason" in j.fields && j.fields["reason"].JBool? ==>
      r == Some(if j.fields["reason"].b then "true" else "false")
    ensures j.JObject? && "reason" in j.fields && (j.fields["reason"].JArray? || j.fields["reason"].JObject?) ==>
      r == Some(codec.inspect(j.fields["reason"]))
    ensures j.JString? ==> r == Some(if Contains(j.s, "reason") then "reason" else "")
  {
    match j
    case JObject(fields) => Some(if "reason" in fields then Show(codec, fields["reason"]) else "")
    case JString(s) => Some(if Contains(s, "reason") then "reason" else "")
    case _ => None
  }

  /** The non-2xx branch: a status-prefixed `Client::Error`, unless indexing the parsed body raises. */
  function StatusError(codec: Codec, response: Response): (e: Raised)
    ensures e.ClientError? ==> StatusOfMessage(e.message) == Some(response.status)
    ensures e.ClientError? ==> StartsWith(e.message, StatusPrefix(response.status))
    ensures codec.parse(response.body).None? ==>
      e == ClientError(StatusPrefix(response.status) + "Unexpected response: " + response.body)
    ensures codec.parse(response.body).Some? ==>
      (e.ClientError? <==> ReasonText(codec, codec.parse(response.body).value).Some?)
    ensures codec.parse(response.body).Some? && e.ClientError? ==>
      e.message == StatusPrefix(response.status) + ReasonText(codec, codec.parse(response.body).value).value
    ensures !e.ClientError? ==> e == ForeignError(ReasonLookupFailed)
  {
    var prefix := StatusPrefix(response.status);
    match codec.parse(response.body)
    case None =>
      var tail := "Unexpected response: " + response.body;
      StatusPrefixRoundTrip(response.status, tail);
      StartsWithAppend(prefix, tail);
      assert prefix + tail == prefix + "Unexpected response: " + response.body;
      ClientError(prefix + tail)
    case Some(j) =>
      match ReasonText(codec, j)
      case None => ForeignError(ReasonLookupFailed)
      case Some(reason) =>
        StatusPrefixRoundTrip(response.status, reason);
        StartsWithAppend(prefix, reason);
        ClientError(prefix + reason)
  }

  /** `handle_response(as_raw)` applied to the transport's response. */
  function HandleResponse(codec: Codec, response: Response, asRaw: bool): (r: Result<Value, Raised>)
    // success exactly on 2xx, and then the body verbatim when raw
    ensures r.Ok? ==> IsSuccess(response.status)
    ensures IsSuccess(response.status) && asRaw ==> r == Ok(RawBody(response.body))
    // decoded: succeeds exactly when the body loads, keeping an object's fields as they are
    ensures IsSuccess(response.status) && !asRaw ==> (r.Ok? <==> codec.load(response.body).Some?)
    ensures IsSuccess(response.status) && !asRaw && codec.load(response.body).Some? ==>
      r == Ok(if codec.load(response.body).value.JObject? then Document(codec.load(response.body).value.fields) else NilValue)
    ensures IsSuccess(response.status) && !asRaw && codec.load(response.body).None? ==> r == Err(ForeignError(LoadFailed))
    // every other status raises, and a `Client::Error` names the status
    ensures !IsSuccess(response.status) ==> r.Err?
    ensures !IsSuccess(response.status) && r.error.ClientError? ==>
      StartsWith(r.error.message, StatusPrefix(response.status)) && StatusOfMessage(r.error.message) == Some(response.status)
    ensures !IsSuccess(response.status) && codec.parse(response.body).None? ==>
      r == Err(ClientError(StatusPrefix(response.status) + "Unexpected response: " + response.body))
    ensures !IsSuccess(response.status) && codec.parse(response.body).Some? ==>
      (r.error.ClientError? <==> ReasonText(codec, codec.parse(response.body).value).Some?)
    ensures !IsSuccess(response.status) && codec.parse(response.body).Some? && r.error.ClientError? ==>
      r.error.message == StatusPrefix(response.status) + ReasonText(codec, codec.parse(response.body).value).value
    ensures !IsSuccess(response.status) && !r.error.ClientError? ==> r == Err(ForeignError(ReasonLookupFailed))
  {
    if IsSuccess(response.status) then
      if asRaw then Ok(RawBody(response.body))
      else
        match codec.load(response.body)
        case None => Err(ForeignError(LoadFailed))
        case Some(j) => Ok(if j.JObject? then Document(j.fields) else NilValue)
    else
      Err(StatusError(codec, response))
  }

  /** The raw flag changes nothing about a failure: the error branch ignores it. */
  lemma RawFlagOnlyMattersOnSuccess(codec: Codec, response: Response)
    requires !IsSuccess(response.status)
    ensures HandleResponse(codec, response, true) == HandleResponse(codec, response, false)
  {
  }

  /** One client call: issue the request, then interpret the reply. */
  function Perform<V>(codec: Codec, call: Call<V>, server: Server<V>): Trace<V, Value>
  {
    Trace([call.request], HandleResponse(codec, server([call.request]), call.asRaw))
  }
}

=== FILE: results.dfy ===
/** Optional values and success/failure results shared by the whole model. */
module Results {

  /** A value that may be absent: Ruby's `nil` or a failed match. */
  datatype Option<+T> = None | Some(value: T)

  /** The outcome of a call that either returns a value or raises. */
  datatype Result<+T, +E> = Ok(value: T) | Err(error: E)
}

=== FILE: routes.dfy ===
/**
 The endpoints of the media-storage API as the service tells them apart:
 a verb and the `/`-separated segments of a resource path. `Recognize` is
 the inverse of `PathOf`, so a request's endpoint can be read off it.
 */
module Routes {
  import opened Results
  import opened Text
  import opened Http

  /** Which metadata document a `GET media/{id}/meta...` reads. */
  datatype MetaPart = AllMeta | ExifMeta | GpanoMeta | UserDoc | UserKeyMeta(key: string)

  datatype Endpoint =
    | ListMedia                          // GET media
    | SearchMedia                        // POST media/search
    | UploadMedia                        // POST media
    | MediaInfo(id: string)              // GET media/{id}
    | MediaContent(id: string)           // GET media/{id}/content
    | DeleteMedia(id: string)            // DELETE media/{id}
    | GetMeta(id: string, part: MetaPart)  // GET media/{id}/meta[/exif|/gpano|/user[/{key}]]
    | PutUserMeta(id: string, key: string) // PUT media/{id}/meta/user/{key}

  /** A non-empty path segment without a separator. */
  predicate IsSegment(s: string)
  {
    |s| > 0 && '/' !in s
  }

  predicate WellFormedPart(part: MetaPart)
  {
    part.UserKeyMeta? ==> IsSegment(part.key)
  }

  /** Every identifier the endpoint carries is a single segment. */
  predicate WellFormed(e: Endpoint)
  {
    match e
    case ListMedia => true
    case SearchMedia => true
    case UploadMedia => true
    case MediaInfo(id) => IsSegment(id)
    case MediaContent(id) => IsSegment(id)
    case DeleteMedia(id) => IsSegment(id)
    case GetMeta(id, part) => IsSegment(id) && WellFormedPart(part)
    case PutUserMeta(id, key) => IsSegment(id) && IsSegment(key)
  }

  function VerbOf(e: Endpoint): Verb
  {
    match e
    case SearchMedia => Post
    case UploadMedia => Post
    case DeleteMedia(_) => Delete
    case PutUserMeta(_, _) => Put
    case _ => Get
  }

  function PartSegments(part: MetaPart): seq<string>
  {
    match part
    case AllMeta => []
    case ExifMeta => ["exif"]
    case GpanoMeta => ["gpano"]
    case UserDoc => ["user"]
    case UserKeyMeta(key) => ["user", key]
  }

  function SegmentsOf(e: Endpoint): seq<string>
  {
    match e
    case ListMedia => ["media"]
    case SearchMedia => ["media", "search"]
    case UploadMedia => ["media"]
    case MediaInfo(id) => ["media", id]
    case MediaContent(id) => ["media", id, "content"]
    case DeleteMedia(id) => ["media", id]
    case GetMeta(id, part) => ["media", id, "meta"] + PartSegments(part)
    case PutUserMeta(id, key) => ["media", id, "meta", "user", key]
  }

  /** The resource path of an endpoint. */
  function PathOf(e: Endpoint): string
  {
    Join(SegmentsOf(e), '/')
  }

  function ParsePart(rest: seq<string>): Option<MetaPart>
  {
    if rest == [] then Some(AllMeta)
    else if rest == ["exif"] then Some(ExifMeta)
    else if rest == ["gpano"] then Some(GpanoMeta)
    else if rest == ["user"] then Some(UserDoc)
    else if |rest| == 2 && rest[0] == "user" && IsSegment(rest[1]) then Some(UserKeyMeta(rest[1]))
    else None
  }

  /** The endpoint a GET on the given segments reads, if any. */
  function RecognizeGet(segs: seq<string>): (r: Option<Endpoint>)
    ensures r.Some? ==> WellFormed(r.value) && VerbOf(r.value) == Get && SegmentsOf(r.value) == segs
  {
    if |segs| == 0 || segs[0] != "media" then None
    else if |segs| == 1 then Some(ListMedia)
    else if !IsSegment(segs[1]) then None
    else if |segs| == 2 then Some(MediaInfo(segs[1]))
    else if segs[2] == "content" then
      if |segs| == 3 then Some(MediaContent(segs[1])) else None
    else if segs[2] == "meta" then
      match ParsePart(segs[3..])
      case Some(part) =>
        assert segs == ["media", segs[1], "meta"] + segs[3..];
        Some(GetMeta(segs[1], part))
      case None => None
    else None
  }

  function RecognizeSegments(verb: Verb, segs: seq<string>): (r: Option<Endpoint>)
    ensures r.Some? ==> WellFormed(r.value) && VerbOf(r.value) == verb && SegmentsOf(r.value) == segs
  {
    match verb
    case Get => RecognizeGet(segs)
    case Post =>
      if segs == ["media"] then Some(UploadMedia)
      else if segs == ["media", "search"] then Some(SearchMedia)
      else None
    case Delete =>
      if |segs| == 2 && segs[0] == "media" && IsSegment(segs[1]) then Some(DeleteMedia(segs[1])) else None
    case Put =>
      if |segs| == 5 && segs[0] == "media" && IsSegment(segs[1]) && segs[2] == "meta" && segs[3] == "user" && IsSegment(segs[4])
      then Some(PutUserMeta(segs[1], segs[4])) else None
  }

  /** The endpoint a verb and a resource path address, if any. */
  function Recognize(verb: Verb, path: string): (r: Option<Endpoint>)
    ensures r.Some? ==> WellFormed(r.value) && VerbOf(r.value) == verb && PathOf(r.value) == path
  {
    JoinSplit(path, '/');
    RecognizeSegments(verb, Split(path, '/'))
  }

  lemma ParsePartInverse(part: MetaPart)
    requires WellFormedPart(part)
    ensures ParsePart(PartSegments(part)) == Some(part)
  {
  }

  /** Each well-formed endpoint's segments are recognised as that endpoint. */
  lemma RecognizeSegmentsComplete(e: Endpoint)
    requires WellFormed(e)
    ensures RecognizeSegments(VerbOf(e), SegmentsOf(e)) == Some(e)
  {
    var segs := SegmentsOf(e);
    match e
    case GetMeta(id, part) =>
      assert segs[2] == "meta";
      assert segs[3..] == PartSegments(part);
      ParsePartInverse(part);
    case _ =>
  }

  /** Every well-formed endpoint is recognised from its own verb and path. */
  lemma {:induction false} RecognizeComplete(e: Endpoint)
    requires WellFormed(e)
    ensures Recognize(VerbOf(e), PathOf(e)) == Some(e)
  {
    var segs := SegmentsOf(e);
    assert forall k :: 0 <= k < |segs| ==> '/' !in segs[k];
    SplitJoin(segs, '/');
    RecognizeSegmentsComplete(e);
  }

  /** The paths of the fixed endpoints, spelled out. */
  lemma FixedPaths()
    ensures PathOf(ListMedia) == "media" && PathOf(UploadMedia) == "media"
    ensures PathOf(SearchMedia) == "media/search"
  {
    JoinCons("media", ["search"], '/');
  }

  /** The paths of the per-media endpoints, spelled out as the client interpolates them. */
  lemma MediaPaths(id: string)
    ensures PathOf(MediaInfo(id)) == "media/" + id && PathOf(DeleteMedia(id)) == "media/" + id
    ensures PathOf(MediaContent(id)) == "media/" + id + "/content"
    ensures PathOf(GetMeta(id, AllMeta)) == "media/" + id + "/meta"
  {
    JoinCons("media", [id], '/');
    JoinCons(id, ["content"], '/');
    JoinCons("media", [id, "content"], '/');
    JoinCons(id, ["meta"], '/');
    JoinCons("media", [id, "meta"], '/');
    assert ["media", id, "meta"] + PartSegments(AllMeta) == ["media", id, "meta"];
  }

  /** The paths of the metadata sub-documents, spelled out. */
  lemma MetaPaths(id: string, key: string)
    ensures PathOf(GetMeta(id, ExifMeta)) == "media/" + id + "/meta/exif"
    ensures PathOf(GetMeta(id, GpanoMeta)) == "media/" + id + "/meta/gpano"
    ensures PathOf(GetMeta(id, UserDoc)) == "media/" + id + "/meta/user"
    ensures PathOf(GetMeta(id, UserKeyMeta(key))) == "media/" + id + "/meta/user/" + key
    ensures PathOf(PutUserMeta(id, key)) == "media/" + id + "/meta/user/" + key
  {
    MetaPath(id, "exif");
    assert SegmentsOf(GetMeta(id, ExifMeta)) == ["media", id, "meta", "exif"];
    MetaPath(id, "gpano");
    assert SegmentsOf(GetMeta(id, GpanoMeta)) == ["media", id, "meta", "gpano"];
    MetaPath(id, "user");
    assert SegmentsOf(GetMeta(id, UserDoc)) == ["media", id, "meta", "user"];
    UserKeyPath(id, key);
    assert SegmentsOf(GetMeta(id, UserKeyMeta(key))) == ["media", id, "meta", "user", key];
  }

  lemma MetaPath(id: string, sub: string)
    ensures Join(["media", id, "meta", sub], '/') == "media/" + id + "/meta/" + sub
  {
    JoinCons("meta", [sub], '/');
    JoinCons(id, ["meta", sub], '/');
    JoinCons("media", [id, "meta", sub], '/');
  }

  lemma UserKeyPath(id: string, key: string)
    ensures Join(["media", id, "meta", "user", key], '/') == "media/" + id + "/meta/user/" + key
  {
    JoinCons("user", [key], '/');
    JoinCons("meta", ["user", key], '/');
    JoinCons(id, ["meta", "user", key], '/');
    JoinCons("media", [id, "meta", "user", key], '/');
  }
  /** The path of a user-key write ends in a character of its key, never in `/`. */
  lemma PutPathEndsInKey(e: Endpoint)
    requires WellFormed(e) && e.PutUserMeta?
    ensures |PathOf(e)| > 0 && PathOf(e)[|PathOf(e)| - 1] != '/'
  {
    UserKeyPath(e.id, e.key);
    var path := PathOf(e);
    assert path[|path| - 1] == e.key[|e.key| - 1];
  }


  /** A request's endpoint, read off its verb and path. */
  function EndpointOf<V>(request: Request<V>): Option<Endpoint>
  {
    Recognize(request.verb, request.path)
  }
}

=== FILE: scenarios.dfy ===
/**
 Concrete cases of the client's behaviour: the exchanges its tests
 describe, and the inputs on which the code as written departs from what
 its comments and tests expect.
 */
module Scenarios {
  import opened Results
  import opened Text
  import opened JsonValues
  import opened Http
  import opened Responses
  import opened Routes
  import opened UserMeta
  import opened Requests
  import opened MetaSelectors
  import opened MetaWrites

  /** Pagination parameters alone are sent unchanged as the query of a GET to `media`. */
  lemma ListPaginationIsSentAsIs()
    ensures var params := [(Sym("after"), JString("media#2")), (Sym("before"), JString("media#99")), (Sym("limit"), JNumber("25"))];
      ListCall(params) == Call(Request(Get, "media", QueryParams(params), []), false)
  {
    var params := [(Sym("after"), JString("media#2")), (Sym("before"), JString("media#99")), (Sym("limit"), JNumber("25"))];
    assert params[1..][1..][1..] == [];
    assert FilterListParams(params) == params;
  }

  /** An unknown key is dropped before the GET is built. */
  lemma ListDropsUnknownKeys()
    ensures ListCall([(Sym("after"), JString("a")), (Sym("bogus"), JNumber("1"))]) ==
      Call(Request(Get, "media", QueryParams([(Sym("after"), JString("a"))]), []), false)
  {
    var params := [(Sym("after"), JString("a")), (Sym("bogus"), JNumber("1"))];
    assert params[1..][1..] == [];
    assert FilterListParams(params) == [(Sym("after"), JString("a"))];
  }

  /** A `:filter` turns the call into a search; absent paging values are sent as `nil`. */
  lemma ListWithFilterSearches(query: Json)
    ensures ListCall([(Sym("filter"), query), (Sym("limit"), JNumber("10")), (Str("bogus"), JNull)]) ==
      Call(Request(Post, "media/search",
        SearchJson(SearchDoc("search_veresion", "2016-07-08", query, Paging(None, None, Some(JNumber("10"))))),
        [("Content-Type", "application/json")]), false)
  {
    var params := [(Sym("filter"), query), (Sym("limit"), JNumber("10")), (Str("bogus"), JNull)];
    assert params[1..][1..][1..] == [];
    assert Lookup(params, Sym("filter")) == Some(query);
    assert Lookup(params, Sym("before")) == None;
    assert Lookup(params, Sym("after")) == None;
    assert Lookup(params, Sym("limit")) == Some(JNumber("10"));
  }

  /**
   A string key `"filter"` survives the allow-list (its symbol is allowed)
   but is not the symbol `:filter`, so the call stays a plain GET.
   */
  lemma StringFilterKeyStaysGet(query: Json)
    ensures ListCall([(Str("filter"), query)]) == Call(Request(Get, "media", QueryParams([(Str("filter"), query)]), []), false)
  {
    assert FilterListParams([(Str("filter"), query)]) == [(Str("filter"), query)];
  }

  /** `download` and `delete` return a 2xx body exactly as received, the empty body included. */
  lemma RawCallsReturnBodyVerbatim<V>(codec: Codec, id: string, server: Server<V>)
    ensures var t := Perform(codec, DownloadCall<V>(id), server);
      |t.issued| == 1 && (IsSuccess(server(t.issued).status) ==> t.outcome == Ok(RawBody(server(t.issued).body)))
    ensures var t := Perform(codec, DeleteCall<V>(id), server);
      |t.issued| == 1 && (IsSuccess(server(t.issued).status) ==> t.outcome == Ok(RawBody(server(t.issued).body)))
  {
  }

  /** A body that is not JSON is quoted in the error message after the status. */
  lemma UnparsableErrorBody(codec: Codec)
    requires codec.parse("oops").None?
    ensures HandleResponse(codec, Response(500, "oops"), false) ==
      Err(ClientError("Status code 500: " + "Unexpected response: " + "oops"))
  {
    assert DigitChar(5) == '5' && DigitChar(0) == '0';
    assert NatText(5) == "5";
    assert NatText(50) == "50";
    assert NatText(500) == "500";
    assert IntText(500) == "500";
    assert StatusPrefix(500) == "Status code 500: ";
  }

  /** Media ids are interpolated unescaped: an id holding `/` can address another endpoint. */
  lemma MediaIdsAreNotEscaped<V>()
    ensures InfoCall<V>("a/content").request == DownloadCall<V>("a").request
  {
    assert "media/" + "a/content" == "media/" + "a" + "/content";
    assert InfoCall<V>("a/content").request == Request(Get, "media/" + "a/content", NoPayload, []);
    assert DownloadCall<V>("a").request == Request(Get, "media/" + "a" + "/content", NoPayload, []);
  }

  /** As written, `meta` reads the whole metadata document whatever field name it is given. */
  lemma MetaIgnoresFieldName<V>(id: string, fieldName: Option<string>)
    requires IsSegment(id)
    ensures EndpointOf(MetaCall<V>(id, fieldName).request) == Some(GetMeta(id, AllMeta))
    ensures fieldName == Some("exif") ==>
      EndpointOf(MetaCall<V>(id, fieldName).request) != EndpointOf(SelectorCall<V>(id, fieldName).value.request)
  {
    if fieldName == Some("exif") {
      FixedSelectorPaths<V>(id);
      assert ParseSelector(fieldName) == Ok(ExifMeta);
    }
  }

  /** A single accepted entry is always issued, whatever its reply. */
  lemma SingleAcceptedEntryIsIssued<V>(codec: Codec, id: string, e: MetaEntry, server: Server<V>)
    requires Accepts(AsWritten, e)
    ensures AddMeta(codec, id, [e], server).issued == [PutFor(id, e)]
  {
    var puts := Puts<V>(id, [e]);
    assert puts[..1] == puts;
    if Answered(server, puts[..1]) {
      AddMetaSucceeds(codec, id, [e], server);
    } else {
      AddMetaStopsAtFailedReply(codec, id, [e], server, 0);
    }
  }

  /** As written, an empty value is written: only the key's length is checked. */
  lemma EmptyValueIsWritten<V>(codec: Codec, server: Server<V>)
    ensures var e := MetaEntry(Some("user.a"), "");
      && AddMeta(codec, "media-id", [e], server).issued == [PutFor("media-id", e)]
      && PutFor<V>("media-id", e).payload == PlainText("")
      && AddMetaChecked(codec, "media-id", [e], server) == Trace([], Err(ClientError(RejectMessage(e))))
  {
    var e := MetaEntry(Some("user.a"), "");
    assert Accepts(AsWritten, e);
    SingleAcceptedEntryIsIssued(codec, "media-id", e, server);
    assert !Valid(e.value);
  }

  /** "title" is not a `user.<name>` key. */
  lemma TitleIsNotAUserKey()
    ensures Capture("title").None? && ExactKeyName("title").None?
  {
    if Capture("title").Some? {
      SingleLineCapture("title", Capture("title").value);
    }
  }

  /**
   The user-metadata collection path with an empty key names no endpoint,
   whatever the id: the path ends in `/`, and a key is never empty.
   */
  lemma EmptyKeyPathIsNoEndpoint(id: string)
    ensures Recognize(Put, "media/" + id + "/meta/user/").None?
  {
    var path := "media/" + id + "/meta/user/";
    assert path[|path| - 1] == '/';
    if Recognize(Put, path).Some? {
      PutPathEndsInKey(Recognize(Put, path).value);
      assert false;
    }
  }

  /**
   As written, a key of valid length that is not `user.<name>` leaves `$1`
   unset, and the PUT goes to the user-metadata collection itself, which
   names no key.
   */
  lemma UnmatchedKeyWritesToUserCollection<V>(codec: Codec, id: string, server: Server<V>)
    ensures var e := MetaEntry(Some("title"), "x");
      && AddMeta(codec, id, [e], server).issued ==
           [Request(Put, "media/" + id + "/meta/user/", PlainText("x"), [("Content-Type", "text/plain")])]
      && EndpointOf(AddMeta(codec, id, [e], server).issued[0]).None?
      && AddMetaChecked(codec, id, [e], server).issued == []
  {
    var e := MetaEntry(Some("title"), "x");
    TitleIsNotAUserKey();
    assert CapturedName(e) == "";
    assert "media/" + id + "/meta/user/" + "" == "media/" + id + "/meta/user/";
    assert Accepts(AsWritten, e) && !Accepts(Checked, e);
    SingleAcceptedEntryIsIssued(codec, id, e, server);
    EmptyKeyPathIsNoEndpoint(id);
  }
}

=== FILE: text.dfy ===
/**
 String helpers the client relies on implicitly: splitting a path or a key
 at a separator, joining it back, and the decimal rendering Ruby's string
 interpolation gives an Integer.
 */
module Text {
  import opened Results

  /** Position of the first `c` in `s`, or `|s|` when there is none. */
  function IndexOf(s: string, c: char): (i: nat)
    ensures i <= |s|
    ensures i < |s| ==> s[i] == c
    ensures forall j :: 0 <= j < i ==> s[j] != c
  {
    if |s| == 0 then 0
    else if s[0] == c then 0
    else 1 + IndexOf(s[1..], c)
  }

  /** The pieces of `s` between occurrences of `c`, like Ruby's `split(c, -1)`,
      except that an empty string gives one empty piece. */
  function Split(s: string, c: char): (parts: seq<string>)
    ensures |parts| >= 1
    ensures forall k :: 0 <= k < |parts| ==> c !in parts[k]
    decreases |s|
  {
    var i := IndexOf(s, c);
    if i == |s| then
      assert forall j :: 0 <= j < |s| ==> s[j] != c;
      [s]
    else
      assert forall j :: 0 <= j < i ==> s[..i][j] != c;
      [s[..i]] + Split(s[i + 1..], c)
  }

  /** The pieces glued back together with `c` between consecutive ones. */
  function Join(parts: seq<string>, c: char): string
  {
    if |parts| == 0 then ""
    else if |parts| == 1 then parts[0]
    else parts[0] + [c] + Join(parts[1..], c)
  }

  /** Join peels off its first piece. */
  lemma JoinCons(p: string, rest: seq<string>, c: char)
    requires |rest| >= 1
    ensures Join([p] + rest, c) == p + [c] + Join(rest, c)
  {
    assert ([p] + rest)[1..] == rest;
  }

  /** Joining the pieces of a split gives back the original string. */
  lemma {:induction false} JoinSplit(s: string, c: char)
    ensures Join(Split(s, c), c) == s
    decreases |s|
  {
    var i := IndexOf(s, c);
    if i < |s| {
      var rest := s[i + 1..];
      var tail := Split(rest, c);
      assert Split(s, c) == [s[..i]] + tail;
      JoinSplit(rest, c);
      JoinCons(s[..i], tail, c);
      assert s == s[..i] + [c] + rest;
    } else {
      assert Split(s, c) == [s];
    }
  }

  /** Splitting a join of separator-free pieces gives back the pieces. */
  lemma {:induction false} SplitJoin(parts: seq<string>, c: char)
    requires |parts| >= 1
    requires forall k :: 0 <= k < |parts| ==> c !in parts[k]
    ensures Split(Join(parts, c), c) == parts
    decreases |parts|
  {
    if |parts| > 1 {
      var p := parts[0];
      var rest := Join(parts[1..], c);
      var s := p + [c] + rest;
      assert Join(parts, c) == s;
      assert s[|p|] == c;
      assert forall j :: 0 <= j < |p| ==> s[j] == p[j];
      var i := IndexOf(s, c);
      assert i == |p|;
      assert s[..i] == p;
      assert s[i + 1..] == rest;
      SplitJoin(parts[1..], c);
      assert parts == [p] + parts[1..];
    }
  }

  /** The first piece of `a + [c] + b` is `a` when `a` holds no `c`. */
  lemma FirstPiece(a: string, c: char, b: string)
    requires c !in a
    ensures Split(a + [c] + b, c)[0] == a
  {
    var s := a + [c] + b;
    assert s[|a|] == c;
    assert forall j :: 0 <= j < |a| ==> s[j] == a[j];
    assert IndexOf(s, c) == |a|;
    assert s[..|a|] == a;
  }

  /** Ruby's `String#start_with?`. */
  predicate StartsWith(s: string, prefix: string)
  {
    |prefix| <= |s| && s[..|prefix|] == prefix
  }

  /** A string starts with any prefix it was built from. */
  lemma StartsWithAppend(prefix: string, rest: string)
    ensures StartsWith(prefix + rest, prefix)
  {
    assert (prefix + rest)[..|prefix|] == prefix;
  }

  /** Ruby's `String#include?`: `sub` occurs somewhere in `s`. */
  predicate Contains(s: string, sub: string)
    decreases |s|
  {
    StartsWith(s, sub) || (|s| > 0 && Contains(s[1..], sub))
  }

  predicate IsDigit(ch: char)
  {
    '0' <= ch <= '9'
  }

  predicate AllDigits(s: string)
  {
    forall k :: 0 <= k < |s| ==> IsDigit(s[k])
  }

  function DigitChar(d: nat): (ch: char)
    requires d < 10
    ensures IsDigit(ch)
  {
    "0123456789"[d]
  }

  function DigitValue(ch: char): nat
    requires IsDigit(ch)
  {
    (ch as int - '0' as int) as nat
  }

  /** Decimal text of a natural number, most significant digit first. */
  function NatText(n: nat): (s: string)
    ensures |s| >= 1
    ensures AllDigits(s)
    decreases n
  {
    if n < 10 then [DigitChar(n)] else NatText(n / 10) + [DigitChar(n % 10)]
  }

  /** The value of a string of decimal digits. */
  function ParseNat(s: string): nat
    requires AllDigits(s)
    decreases |s|
  {
    if |s| == 0 then 0
    else ParseNat(s[..|s| - 1]) * 10 + DigitValue(s[|s| - 1])
  }

  /** Reading back the decimal text of `n` gives `n`. */
  lemma {:induction false} ParseNatText(n: nat)
    ensures ParseNat(NatText(n)) == n
    decreases n
  {
    var s := NatText(n);
    if n < 10 {
      assert DigitValue(DigitChar(n)) == n;
    } else {
      ParseNatText(n / 10);
      assert s[..|s| - 1] == NatText(n / 10);
      assert DigitValue(DigitChar(n % 10)) == n % 10;
    }
  }

  /** Ruby's `Integer#to_s`: a minus sign before the digits of a negative number. */
  function IntText(n: int): (s: string)
    ensures |s| >= 1
    ensures ':' !in s
  {
    if n < 0 then "-" + NatText(-n) else NatText(n)
  }

  /** The inverse of `IntText` on its image: an optional sign and at least one digit. */
  function ParseInt(s: string): (r: Option<int>)
    ensures r.Some? ==> |s| >= 1
  {
    if |s| >= 2 && s[0] == '-' && AllDigits(s[1..]) then Some(0 - ParseNat(s[1..]) as int)
    else if |s| >= 1 && AllDigits(s) then Some(ParseNat(s))
    else None
  }

  /** Every integer's text reads back as that integer. */
  lemma {:induction false} IntTextRoundTrip(n: int)
    ensures ParseInt(IntText(n)) == Some(n)
  {
    if n < 0 {
      var digits := NatText(-n);
      ParseNatText(-n);
      assert IntText(n) == "-" + digits;
      NegativeTextParses(digits);
    } else {
      var digits := NatText(n);
      ParseNatText(n);
      assert IntText(n) == digits;
      assert digits[0] != '-' by { assert IsDigit(digits[0]); }
      assert ParseInt(digits) == Some(ParseNat(digits) as int);
    }
  }

  lemma NegativeTextParses(digits: string)
    requires |digits| >= 1 && AllDigits(digits)
    ensures ParseInt("-" + digits) == Some(0 - ParseNat(digits) as int)
  {
    assert ("-" + digits)[1..] == digits;
  }

}

=== FILE: user_meta.dfy ===
/**
 User-metadata validation: the `valid?` length predicate with its bounds,
 and the key pattern `^user\.([A-Za-z0-9_\-]{1,256})$` read the way Ruby
 reads it, where `^` and `$` match at every line boundary.
 */
module UserMeta {
  import opened Results
  import opened Text

  const MinUserMetaLength: nat := 1
  const MaxUserMetaLength: nat := 1024
  const MaxKeyNameLength: nat := 256
  const UserPrefix: string := "user."

  /** `valid?`: the length lies within the user-metadata bounds. */
  predicate Valid(value: string)
  {
    MinUserMetaLength <= |value| <= MaxUserMetaLength
  }

  /** The bounds are inclusive at both ends. */
  lemma ValidBoundaries(value: string)
    ensures |value| == 0 ==> !Valid(value)
    ensures |value| == 1 ==> Valid(value)
    ensures |value| == 1024 ==> Valid(value)
    ensures |value| == 1025 ==> !Valid(value)
    ensures Valid(value) <==> 1 <= |value| <= 1024
  {
  }

  /** One character of the class `[A-Za-z0-9_\-]`. */
  predicate IsKeyChar(ch: char)
  {
    ('A' <= ch <= 'Z') || ('a' <= ch <= 'z') || ('0' <= ch <= '9') || ch == '_' || ch == '-'
  }

  /** A key name the pattern's capture group accepts. */
  predicate IsKeyName(w: string)
  {
    1 <= |w| <= MaxKeyNameLength && forall k :: 0 <= k < |w| ==> IsKeyChar(w[k])
  }

  /** A key name is a single, non-empty path segment. */
  lemma KeyNameHasNoSlash(w: string)
    requires IsKeyName(w)
    ensures |w| > 0 && '/' !in w
  {
  }

  /** The captured name when a whole line is `user.<name>`. */
  function ExactKeyName(line: string): Option<string>
  {
    if StartsWith(line, UserPrefix) && IsKeyName(line[|UserPrefix|..]) then Some(line[|UserPrefix|..])
    else None
  }

  /** `ExactKeyName` recognises exactly the lines `user.<name>`, in both directions. */
  lemma ExactKeyNameMatches(line: string, w: string)
    ensures ExactKeyName(line) == Some(w) <==> line == UserPrefix + w && IsKeyName(w)
  {
    if line == UserPrefix + w {
      assert line[..|UserPrefix|] == UserPrefix;
      assert line[|UserPrefix|..] == w;
    }
  }

  /** `lines[i]` is `user.<w>` and no earlier line matches the pattern. */
  predicate FirstMatchAt(lines: seq<string>, i: int, w: string)
  {
    && 0 <= i < |lines|
    && lines[i] == UserPrefix + w
    && forall j :: 0 <= j < i ==> ExactKeyName(lines[j]).None?
  }

  /** A first match in the rest stays the first match behind a line that does not match. */
  lemma FirstMatchBehind(lines: seq<string>, w: string)
    requires |lines| > 0 && ExactKeyName(lines[0]).None?
    requires exists i :: FirstMatchAt(lines[1..], i, w)
    ensures exists i :: FirstMatchAt(lines, i, w)
  {
    var i :| FirstMatchAt(lines[1..], i, w);
    forall j | 0 <= j < i + 1 ensures ExactKeyName(lines[j]).None? {
      if j > 0 {
        assert lines[j] == lines[1..][j - 1];
      }
    }
    assert FirstMatchAt(lines, i + 1, w);
  }

  /** The capture of the first line of `lines` that matches the pattern. */
  function FirstKeyName(lines: seq<string>): (r: Option<string>)
    ensures r.Some? ==> IsKeyName(r.value)
    ensures r.Some? ==> exists i :: FirstMatchAt(lines, i, r.value)
    ensures r.None? <==> forall i :: 0 <= i < |lines| ==> ExactKeyName(lines[i]).None?
    decreases |lines|
  {
    if |lines| == 0 then None
    else match ExactKeyName(lines[0])
      case Some(w) =>
        ExactKeyNameMatches(lines[0], w);
        assert FirstMatchAt(lines, 0, w);
        Some(w)
      case None =>
        var r := FirstKeyName(lines[1..]);
        assert forall i :: 1 <= i < |lines| ==> lines[i] == lines[1..][i - 1];
        if r.Some? then
          FirstMatchBehind(lines, r.value);
          r
        else r
  }

  /** `$1` after matching the pattern against a key: the leftmost matching line's name. */
  function Capture(key: string): Option<string>
  {
    FirstKeyName(Split(key, '\n'))
  }

  /** On a key without line breaks the capture is exactly the name after `user.`. */
  lemma {:induction false} SingleLineCapture(key: string, w: string)
    requires '\n' !in key
    ensures Capture(key) == Some(w) <==> key == UserPrefix + w && IsKeyName(w)
  {
    SplitJoin([key], '\n');
    assert Join([key], '\n') == key;
    assert Split(key, '\n') == [key];
    ExactKeyNameMatches(key, w);
  }

  /** A `user.<name>` line holds no line break. */
  lemma KeyLineIsOneLine(w: string)
    requires IsKeyName(w)
    ensures '\n' !in UserPrefix + w
  {
    var line := UserPrefix + w;
    forall k | 0 <= k < |line| ensures line[k] != '\n' {
      if k >= |UserPrefix| {
        assert line[k] == w[k - |UserPrefix|];
        assert IsKeyChar(w[k - |UserPrefix|]);
      }
    }
  }

  /** A key that is exactly `user.<name>` is captured and always passes `valid?`. */
  lemma {:induction false} ExactKeyIsCapturedAndValid(key: string, w: string)
    requires ExactKeyName(key) == Some(w)
    ensures Capture(key) == Some(w)
    ensures Valid(key)
  {
    ExactKeyNameMatches(key, w);
    KeyLineIsOneLine(w);
    SingleLineCapture(key, w);
  }

  /**
   A later line can supply the capture: `^` and `$` also match at a line
   break, so a first line that does not match is skipped.
   */
  lemma {:induction false} CaptureLaterLine(first: string, w: string)
    requires '\n' !in first && ExactKeyName(first).None? && IsKeyName(w)
    ensures Capture(first + "\n" + UserPrefix + w) == Some(w)
  {
    var line := UserPrefix + w;
    KeyLineIsOneLine(w);
    SplitJoin([first, line], '\n');
    JoinCons(first, [line], '\n');
    assert Join([line], '\n') == line;
    assert first + "\n" + UserPrefix + w == first + ['\n'] + line;
    ExactKeyNameMatches(line, w);
    assert [first, line][1..] == [line];
    assert FirstKeyName([line]) == Some(w);
  }
}
